=== FILE: README.md ===
# PrivatePub, modelled in Dafny

PrivatePub lets a Rails application publish messages to a Faye server. It also
hands browsers signed subscription tickets. This project models the pure
logic of its one module, `lib/private_pub.rb`:

- the configuration hash: `reset_config` and the merge done by `load_config`;
- the message envelope built by `message(channel, data)`;
- the subscription ticket from `subscription(options)` and its signature;
- the three-valued expiry check `signature_expired?(timestamp)`;
- the request `publish_message` / `publish_to` would send, up to the network call;
- the status logger `log_status`.

Ruby objects are the datatype `RubyValues.Value`. Hash keys are
`RubyValues.Key`, so the symbol `:channel` and the string `"channel"` stay
distinct keys. That matters: the configuration, the options and the ticket
are only read through symbols, while the parsed YAML document is looked up
by the environment's string name (`environment.to_s`).

A missing key reads as nil, and only nil and false are falsy. `Array#join` is
`RubyValues.Text` / `RubyValues.Join`: nil joins as the empty string, integers
as their decimal text, and nested arrays are flattened.

Three library calls are deterministic functions the caller supplies, bundled
in `Library.Runtime`:

- `Digest::SHA1.hexdigest`;
- the text `Hash#to_s` makes of a hash;
- `URI.parse`.

The current time is a parameter, in whole milliseconds.

The Ruby core semantics followed are those of Ruby 2.2 and later: a String
has no `each`, an Integer has no `to_sym`, `Hash#to_s` is `inspect`, and
`URI.parse` of a Symbol raises `InvalidURIError`.

`load_config` changes the configuration in place. So `ConfigStore.Load`
returns the configuration as it stands when the call ends, together with the
error raised, if any. A raise part-way through an array-shaped section keeps
the writes made before it.

Edge cases, as the code handles them:

- a missing or nil environment raises `ArgumentError` naming the environment and the file;
- a falsy server raises `PrivatePub::Error` with the code's message;
- TLS is chosen by comparing the scheme `URI.parse` reports with `"https"`;
- a section that is `false`, a number, a string or a symbol passes the nil check and then fails on `each`;
- an array section's elements may hold any value, and an element whose key is not a String or Symbol raises on `to_sym`.

Three behaviours are kept exactly as written:

- The logging flag is inverted: output is written only when `:log_state` is falsy.
- Signing is permissive: a missing secret or channel signs over the empty string.
- The signed parts are joined with no separator, so a channel and timestamp pair is not recovered uniquely from the signed text.

## Model

| member | source | states |
|---|---|---|
| `RubyValues.ToSym` | lib/private_pub.rb:23 | a String or Symbol key becomes the symbol of the same name; any other key has no `to_sym` and raises |
| `RubyValues.NatText` | lib/private_pub.rb:60 | a non-negative integer joins as a non-empty run of decimal digits with no leading zero |
| `RubyValues.IntTextRoundTrip` | lib/private_pub.rb:60 | the decimal text a timestamp contributes to the signed string reads back as the same integer |
| `RubyValues.IntTextInjective` | lib/private_pub.rb:60 | two timestamps contribute the same text exactly when they are equal |
| `RubyValues.JoinThree` | lib/private_pub.rb:60 | joining secret, channel and timestamp concatenates their three texts in that order |
| `ConfigStore.Reset` | lib/private_pub.rb:15-17 | after a reset every key reads as nil and the hash is empty |
| `ConfigStore.Symbolize` | lib/private_pub.rb:23 | every section key lands on the symbol of its name with its value, and only symbols are written |
| `ConfigStore.LoadPairs` | lib/private_pub.rb:23 | iterating an array section succeeds exactly when every element's key has `to_sym`; otherwise it raises NoMethodError |
| `ConfigStore.Load` | lib/private_pub.rb:20-24 | a missing or nil environment raises ArgumentError naming environment and file; a hash section sets each of its keys and leaves every other key unchanged; an array section applies its writes and, on a key with no `to_sym`, raises NoMethodError; any other section raises on `each` |
| `ConfigStore.LoadPairsOverrides` | lib/private_pub.rb:23 | an array section overrides the configuration with its writes up to the first bad key, and whether it raises does not depend on the prior configuration |
| `ConfigStore.LoadIdempotent` | lib/private_pub.rb:20-24 | loading the same environment a second time changes nothing and repeats the same outcome |
| `Messages.ClassifyRoundTrip` | lib/private_pub.rb:48-52 | the payload is script exactly when the data is a String, and classifying loses nothing |
| `Messages.Message` | lib/private_pub.rb:46-54 | the envelope has exactly `:channel`, `:data` and `:ext`; the channel is echoed outside and inside; `:ext` holds the configured secret token; the inner hash holds `:eval` for a String and `:data` otherwise, never both |
| `Messages.MessageRoundTrip` | lib/private_pub.rb:46-54 | a built message reads back as its channel, its data and the configured token |
| `Messages.WellFormedIsBuilt` | lib/private_pub.rb:46-54 | every message of the built shape is what `message` builds from what it reads back as |
| `Signing.Subscription` | lib/private_pub.rb:58-62 | the ticket holds the caller's keys plus server, timestamp and signature; caller options override the default server and the current time; the signature is the digest of secret, the caller's channel and the merged timestamp texts |
| `Signing.SubscriptionIsValid` | lib/private_pub.rb:60 | every ticket passes the check that its signature digests its own channel and timestamp |
| `Signing.CallerSignatureIgnored` | lib/private_pub.rb:59-60 | a `:signature` passed by the caller is overwritten and does not affect the ticket |
| `Signing.SubscriptionIdempotent` | lib/private_pub.rb:59-61 | signing a ticket again at any time returns it unchanged |
| `Signing.MissingChannelSignsEmpty` | lib/private_pub.rb:60 | without a `:channel` option the signature equals the one for the channel `""` and for a nil channel |
| `Signing.MissingSecretSignsEmpty` | lib/private_pub.rb:60 | for any configuration without a `:secret_token` setting the signature equals the one for the secret `""` and for a nil secret |
| `Signing.SignedTextAmbiguous` | lib/private_pub.rb:60 | the join has no separator, so the channel "/foo1" at timestamp 23 and the channel "/foo" at 123 digest the same text |
| `Signing.SignedTextSeparates` | lib/private_pub.rb:60 | with string secret and channel and an integer timestamp, changing any one of the three changes the digested text, and only then |
| `Signing.SignatureExpired` | lib/private_pub.rb:65-67 | no policy (None) exactly when the expiration is unset or false; for whole seconds, expired exactly when timestamp plus the window is before now; a non-integer expiration raises TypeError |
| `Signing.ExpiryMonotone` | lib/private_pub.rb:66 | an expired timestamp stays expired as time passes, and older timestamps are expired too |
| `Signing.TicketLifetime` | lib/private_pub.rb:58-67 | a ticket signed at a time is expired exactly when more than the window has passed, so at the window's end it is still accepted |
| `Publishing.RequestPath` | lib/private_pub.rb:37 | the request path is never empty: the URL's path if it has one, otherwise "/" |
| `Publishing.PublishMessage` | lib/private_pub.rb:33-43 | a falsy server raises PrivatePub::Error; a non-String or unparsable server raises InvalidURIError; a URI without a path raises NoMethodError on `empty?`; otherwise the request goes to the URL's host and port, with the normalised path, TLS exactly when the scheme is "https", and the message unchanged |
| `Publishing.PublishTo` | lib/private_pub.rb:28-30 | without a server it raises; a request it produces carries a message that reads back as the channel, data and token |
| `Publishing.PublishReadsOnlyServer` | lib/private_pub.rb:34-35 | of the configuration, publishing reads only the server |
| `StatusLog.Puts` | lib/private_pub.rb:71 | the output is the message followed by a newline, which is added only when the message does not already end in one |
| `StatusLog.LogStatus` | lib/private_pub.rb:69-75 | something is printed exactly when `:log_state` is falsy, and then the message is printed and nil returned; otherwise nothing is printed and true is returned |
| `Scenarios.LoadTestEnvironment` | lib/private_pub.rb:20-24 | reset then load of a `test` section with string keys reads back its server, secret token and expiration under their symbols |
| `Scenarios.SignedTicketLifecycle` | lib/private_pub.rb:58-67 | under those three settings, a ticket for `/foo` names the server, carries the signing time, signs "abc", "/foo" and that time, and is accepted for sixty seconds and refused after |
| `Scenarios.MissingEnvironmentRaises` | lib/private_pub.rb:22 | loading an environment the document lacks raises and leaves the configuration empty |
| `Scenarios.PublishBeforeLoadRaises` | lib/private_pub.rb:34 | publishing with a freshly reset configuration raises PrivatePub::Error |

## Left out

- The HTTP exchange (`Net::HTTP.new`, `start`, `request`, lib/private_pub.rb:40-42) is network I/O. Transport errors and the response are therefore not modelled; the model stops at the request it would send.
- The JSON encoding of the message into the form field (lib/private_pub.rb:38) is left out; the request carries the message value itself.
- Reading the YAML file (lib/private_pub.rb:21) is left out; `ConfigStore.Load` takes the parsed top-level mapping. A document that is not a mapping is not modelled.
- SHA-1, its hex encoding, `URI.parse` and `Hash#to_s` are functions supplied through `Library.Runtime`. Only their determinism and their inputs are modelled.
- `Time.now` is replaced by an integer count of milliseconds. The float arithmetic and `round` of lib/private_pub.rb:59 and 66 are not modelled.
- Float values are not part of `RubyValues.Value`.
- `faye_app` and its five event hooks (lib/private_pub.rb:79-99) are wiring into Faye's RackAdapter and are not modelled. So are the `FayeExtension` and Rails engine files (lib/private_pub.rb:5-6); they are not part of this model.
- `ConfigStore.Symbolize`: when a section holds both the string key "a" and the symbol key :a, Ruby keeps whichever comes later in the hash. A map records no order, so the model keeps the symbol's value.
- `ConfigStore.Symbolize`: hash keys are Strings or Symbols only. A YAML key of another type, such as an integer, has no `to_sym`, and that raise is not modelled for hash sections.
- `Signing.SignatureExpired`: the timestamp argument is an integer. A nil or string timestamp, which would make Ruby's `<` raise, is not modelled. The expiration window is whole seconds; a float window is not modelled.
- `StatusLog.LogStatus`: the message is a string. `puts` of other objects and of arrays is not modelled.

=== FILE: config.dfy ===
/** The process-wide configuration hash: `reset_config` and `load_config`.
    The YAML file is taken as already read; `document` is its top-level
    mapping. */
module ConfigStore {
  import opened RubyValues

  type Config = Table

  /** `reset_config`: a fresh, empty hash. */
  function Reset(): (c: Config)
    ensures forall k :: Get(c, k) == Nil
    ensures |c| == 0
  {
    map[]
  }

  /** `load_config` mutates the configuration in place, so a raise part-way
      through keeps the keys written before it. */
  datatype LoadOutcome =
    | Loaded(config: Config)
    | Raised(config: Config, error: Failure)

  function KeyName(k: Key): string
  {
    match k
    case SymKey(n) => n
    case StrKey(t) => t
  }

  /** A section key `k` written as `k.to_sym`: a string key and a symbol key
      with the same name land on the same symbol, and the symbol's value is
      the one kept. */
  function Symbolize(m: Table): (r: Table)
    ensures forall k :: k in r ==> k.SymKey?
    ensures forall n :: SymKey(n) in r <==> SymKey(n) in m || StrKey(n) in m
    ensures forall n :: SymKey(n) in m ==> r[SymKey(n)] == m[SymKey(n)]
    ensures forall n :: SymKey(n) !in m && StrKey(n) in m ==> r[SymKey(n)] == m[StrKey(n)]
  {
    map k | k in m && (k.SymKey? || SymKey(k.text) !in m) :: SymKey(KeyName(k)) := m[k]
  }

  /** The error `load_config` raises for a missing environment. */
  function MissingEnvironment(environment: string, filename: string): Failure
  {
    ArgumentError("The " + environment + " environment does not exist in " + filename)
  }

  /** The pair a block `|k, v|` receives for one element of an array: an
      array element is spread over `k` and `v`, anything else is `k` alone. */
  function BlockPair(x: Value): (Value, Value)
  {
    if x.List? then
      (if |x.items| > 0 then x.items[0] else Nil, if |x.items| > 1 then x.items[1] else Nil)
    else
      (x, Nil)
  }

  /** `each` over an array section: every element's key is written as a
      symbol, in order, until a key that has no `to_sym` raises. */
  function LoadPairs(cfg: Config, items: seq<Value>): (r: LoadOutcome)
    ensures |items| == 0 ==> r == Loaded(cfg)
    ensures r.Raised? ==> r.error == NoMethodError("to_sym")
    ensures r.Loaded? <==> forall j :: 0 <= j < |items| ==> ToSym(BlockPair(items[j]).0).Ok?
    decreases |items|
  {
    if |items| == 0 then Loaded(cfg)
    else
      var (k, v) := BlockPair(items[0]);
      match ToSym(k)
      case Err(e) => Raised(cfg, e)
      case Ok(key) =>
        var r := LoadPairs(cfg[key := v], items[1..]);
        assert forall j :: 1 <= j < |items| ==> items[j] == items[1..][j - 1];
        r
  }

  /** `load_config(filename, environment)` on the parsed document. */
  function Load(cfg: Config, document: Table, environment: string, filename: string): (r: LoadOutcome)
    ensures Get(document, StrKey(environment)).Nil? ==> r == Raised(cfg, MissingEnvironment(environment, filename))
    ensures Get(document, StrKey(environment)).Hash? ==>
      var m := Get(document, StrKey(environment)).entries;
      && r.Loaded?
      && (forall n :: SymKey(n) in m ==> Get(r.config, SymKey(n)) == m[SymKey(n)])
      && (forall n :: SymKey(n) !in m && StrKey(n) in m ==> Get(r.config, SymKey(n)) == m[StrKey(n)])
      && (forall k :: k !in Symbolize(m) ==> Get(r.config, k) == Get(cfg, k))
    ensures Get(document, StrKey(environment)).List? ==>
      var items := Get(document, StrKey(environment)).items;
      && r.config == cfg + PairWrites(items)
      && (r.Loaded? <==> forall j :: 0 <= j < |items| ==> ToSym(BlockPair(items[j]).0).Ok?)
      && (r.Raised? ==> r.error == NoMethodError("to_sym"))
    ensures match Get(document, StrKey(environment))
      case Bool(_) | Int(_) | Str(_) | Sym(_) => r == Raised(cfg, NoMethodError("each"))
      case _ => true
    ensures r.Raised? && !Get(document, StrKey(environment)).List? ==> r.config == cfg
  {
    match Get(document, StrKey(environment))
    case Nil => Raised(cfg, MissingEnvironment(environment, filename))
    case Hash(m) => Loaded(cfg + Symbolize(m))
    case List(items) =>
      LoadPairsOverrides(cfg, items);
      LoadPairs(cfg, items)
    case _ => Raised(cfg, NoMethodError("each"))
  }

  /** The writes an array section makes, the later of two writes to one
      key winning, up to the first element whose key has no `to_sym`. */
  function PairWrites(items: seq<Value>): Table
    decreases |items|
  {
    if |items| == 0 then map[]
    else
      var (k, v) := BlockPair(items[0]);
      match ToSym(k)
      case Err(_) => map[]
      case Ok(key) => map[key := v] + PairWrites(items[1..])
  }

  /** Loading an array section overrides the configuration with its writes;
      whether it raises depends on the section alone. */
  lemma {:induction false} LoadPairsOverrides(cfg: Config, items: seq<Value>)
    ensures LoadPairs(cfg, items).config == cfg + PairWrites(items)
    ensures LoadPairs(cfg, items).Loaded? == LoadPairs(map[], items).Loaded?
    decreases |items|
  {
    if |items| > 0 {
      var (k, v) := BlockPair(items[0]);
      match ToSym(k)
      case Err(_) =>
        assert cfg + map[] == cfg;
      case Ok(key) =>
        LoadPairsOverrides(cfg[key := v], items[1..]);
        LoadPairsOverrides(map[][key := v], items[1..]);
        assert cfg[key := v] + PairWrites(items[1..]) == cfg + (map[key := v] + PairWrites(items[1..]));
    } else {
      assert cfg + map[] == cfg;
    }
  }

  /** Loading the same environment twice leaves what loading it once left,
      and raises the same error if the first load raised. */
  lemma LoadIdempotent(cfg: Config, document: Table, environment: string, filename: string)
    ensures Load(Load(cfg, document, environment, filename).config, document, environment, filename)
         == Load(cfg, document, environment, filename)
  {
  }
}

=== FILE: library.dfy ===
/** The library calls the module makes and the model does not interpret. */
module Library {
  import opened RubyValues

  /** What `URI.parse` reports of a server address; each part may be absent
      (a relative reference has no scheme or host, an opaque URI such as
      `mailto:x` has no path). */
  datatype Uri = Uri(scheme: Option<string>, host: Option<string>, port: Option<int>, path: Option<string>)

  /** `Digest::SHA1.hexdigest`, the text `Hash#to_s` makes of a hash, and
      `URI.parse` (None when it raises `URI::InvalidURIError`). Each is a
      deterministic function supplied by the caller. */
  datatype Runtime = Runtime(
    sha1Hex: string -> string,
    hashText: Table -> string,
    parseUri: string -> Option<Uri>)
}

=== FILE: logging.dfy ===
/** `log_status(msg)`: prints the message unless `:log_state` is set. The
    flag works the other way round from its name, and the model keeps it so. */
module StatusLog {
  import opened RubyValues
  import opened ConfigStore

  /** What a call writes to standard output and what it returns. */
  datatype LogOutcome = LogOutcome(stdout: string, returned: Value)

  /** `puts msg`: the message followed by a newline, unless it already ends
      in one. */
  function Puts(msg: string): (out: string)
    ensures |msg| <= |out| <= |msg| + 1
    ensures |out| > 0 && out[|out| - 1] == '\n'
    ensures out[..|msg|] == msg
    ensures |out| == |msg| <==> |msg| > 0 && msg[|msg| - 1] == '\n'
  {
    if |msg| > 0 && msg[|msg| - 1] == '\n' then msg else msg + "\n"
  }

  /** `log_status(msg)`. `puts` returns nil; the silent branch returns true. */
  function LogStatus(cfg: Config, msg: string): (o: LogOutcome)
    ensures o.stdout != "" <==> !Truthy(Get(cfg, LogStateKey))
    ensures !Truthy(Get(cfg, LogStateKey)) ==> o.stdout == Puts(msg) && o.returned == Nil
    ensures Truthy(Get(cfg, LogStateKey)) ==> o == LogOutcome("", Bool(true))
  {
    if !Truthy(Get(cfg, LogStateKey)) then LogOutcome(Puts(msg), Nil) else LogOutcome("", Bool(true))
  }
}

=== FILE: messages.dfy ===
/** `message(channel, data)`: the envelope published to the Faye server. */
module Messages {
  import opened RubyValues
  import opened ConfigStore

  /** The payload, told apart once: a Ruby String is script the browser
      evaluates, anything else is data it receives as is. */
  datatype Payload = Script(source: string) | Data(value: Value)

  function Classify(data: Value): Payload
  {
    if data.Str? then Script(data.s) else Data(data)
  }

  /** The Ruby value a payload stands for. */
  function PayloadValue(p: Payload): Value
  {
    match p
    case Script(s) => Str(s)
    case Data(v) => v
  }

  /** Classifying loses nothing, and every payload whose data is not a
      String is what some value classifies as. */
  lemma ClassifyRoundTrip(data: Value, p: Payload)
    ensures PayloadValue(Classify(data)) == data
    ensures Classify(data).Script? <==> data.Str?
    ensures (p.Data? ==> !p.value.Str?) ==> Classify(PayloadValue(p)) == p
  {
  }

  /** The inner `:data` hash for a channel and payload. */
  function InnerHash(channel: Value, p: Payload): Table
  {
    match p
    case Script(s) => map[ChannelKey := channel, EvalKey := Str(s)]
    case Data(v) => map[ChannelKey := channel, DataKey := v]
  }

  /** `message(channel, data)`. */
  function Message(cfg: Config, channel: Value, data: Value): (m: Value)
    ensures m.Hash? && m.entries.Keys == {ChannelKey, DataKey, ExtKey}
    ensures m.entries[ChannelKey] == channel
    ensures m.entries[ExtKey] == Hash(map[TokenKey := Get(cfg, SecretTokenKey)])
    ensures m.entries[DataKey].Hash?
    ensures var inner := m.entries[DataKey].entries;
      && inner.Keys == {ChannelKey, if data.Str? then EvalKey else DataKey}
      && inner[ChannelKey] == channel
      && (data.Str? ==> inner[EvalKey] == data)
      && (!data.Str? ==> inner[DataKey] == data)
  {
    Hash(map[
      ChannelKey := channel,
      DataKey := Hash(InnerHash(channel, Classify(data))),
      ExtKey := Hash(map[TokenKey := Get(cfg, SecretTokenKey)])])
  }

  /** What a receiver reads back from a message. */
  datatype Envelope = Envelope(channel: Value, data: Value, token: Value)

  /** The shape every built message has: the three outer keys, the channel
      echoed inside, exactly one of `:eval` (holding a String) or `:data`
      (holding anything else), and the token alone under `:ext`. */
  predicate WellFormed(m: Value)
  {
    && m.Hash? && m.entries.Keys == {ChannelKey, DataKey, ExtKey}
    && m.entries[DataKey].Hash? && m.entries[ExtKey].Hash?
    && m.entries[ExtKey].entries.Keys == {TokenKey}
    && var inner := m.entries[DataKey].entries;
       && ChannelKey in inner && inner[ChannelKey] == m.entries[ChannelKey]
       && ((inner.Keys == {ChannelKey, EvalKey} && inner[EvalKey].Str?)
           || (inner.Keys == {ChannelKey, DataKey} && !inner[DataKey].Str?))
  }

  /** The parts of a message of the built shape. */
  function Parts(m: Value): Envelope
    requires WellFormed(m)
  {
    var inner := m.entries[DataKey].entries;
    Envelope(
      m.entries[ChannelKey],
      if EvalKey in inner then inner[EvalKey] else inner[DataKey],
      m.entries[ExtKey].entries[TokenKey])
  }

  /** The reader that pairs with `Message`: None when the value does not
      have the built shape, otherwise the parts `Message` rebuilds it from. */
  function Unpack(m: Value): (e: Option<Envelope>)
    ensures e.Some? <==> WellFormed(m)
    ensures e.Some? ==> Message(map[SecretTokenKey := e.value.token], e.value.channel, e.value.data) == m
  {
    if !WellFormed(m) then None
    else
      WellFormedIsBuilt(m);
      Some(Parts(m))
  }

  /** A built message reads back as the channel, the data and the
      configured secret token. */
  lemma MessageRoundTrip(cfg: Config, channel: Value, data: Value)
    ensures Unpack(Message(cfg, channel, data)) == Some(Envelope(channel, data, Get(cfg, SecretTokenKey)))
  {
  }

  /** Conversely, every well-formed message is the one `message` builds
      from what it reads back as, under a configuration holding its token. */
  lemma WellFormedIsBuilt(m: Value)
    requires WellFormed(m)
    ensures var e := Parts(m);
      Message(map[SecretTokenKey := e.token], e.channel, e.data) == m
  {
    var e := Parts(m);
    var built := Message(map[SecretTokenKey := e.token], e.channel, e.data);
    var inner := m.entries[DataKey].entries;
    var ext := m.entries[ExtKey].entries;
    assert ext == map[TokenKey := e.token];
    if EvalKey in inner {
      assert inner == map[ChannelKey := e.channel, EvalKey := e.data];
    } else {
      assert inner == map[ChannelKey := e.channel, DataKey := e.data];
    }
    assert built.entries == m.entries;
  }
}

=== FILE: publishing.dfy ===
/** `publish_message(message)` and `publish_to(channel, data)` up to the
    point where the HTTP request is sent: the error when no server is
    configured, and the request's host, port, path, TLS choice and form. */
module Publishing {
  import opened RubyValues
  import opened Library
  import opened ConfigStore
  import opened Messages

  /** The POST request `publish_message` would send. The form field
      `message` holds the message (its JSON text is not modelled). */
  datatype Request = Request(
    host: Option<string>,
    port: Option<int>,
    path: string,
    useSsl: bool,
    message: Value)

  const NoServer := PrivatePubError("No server specified, ensure private_pub.yml was loaded properly.")

  /** The request path: a parsed URL with an empty path posts to "/". */
  function RequestPath(urlPath: string): (p: string)
    ensures p != ""
    ensures urlPath != "" ==> p == urlPath
    ensures urlPath == "" ==> p == "/"
  {
    if urlPath == "" then "/" else urlPath
  }

  /** `publish_message(message)` before the network exchange. A server
      that is not a String makes `URI.parse` raise; a URI without a path
      (an opaque one such as `mailto:x`) makes `path.empty?` raise. */
  function PublishMessage(cfg: Config, message: Value, rt: Runtime): (r: Result<Request>)
    ensures !Truthy(Get(cfg, ServerKey)) ==> r == Err(NoServer)
    ensures Truthy(Get(cfg, ServerKey)) && !Get(cfg, ServerKey).Str? ==> r == Err(InvalidUriError)
    ensures Get(cfg, ServerKey).Str? && rt.parseUri(Get(cfg, ServerKey).s).None? ==> r == Err(InvalidUriError)
    ensures (Get(cfg, ServerKey).Str? && rt.parseUri(Get(cfg, ServerKey).s).Some?
             && rt.parseUri(Get(cfg, ServerKey).s).value.path.None?) ==> r == Err(NoMethodError("empty?"))
    ensures r.Ok? <==>
      && Get(cfg, ServerKey).Str?
      && rt.parseUri(Get(cfg, ServerKey).s).Some?
      && rt.parseUri(Get(cfg, ServerKey).s).value.path.Some?
    ensures r.Ok? ==>
      var url := rt.parseUri(Get(cfg, ServerKey).s).value;
      && r.value.host == url.host
      && r.value.port == url.port
      && r.value.path == RequestPath(url.path.value)
      && (r.value.useSsl <==> url.scheme == Some("https"))
      && r.value.message == message
  {
    match Get(cfg, ServerKey)
    case Nil => Err(NoServer)
    case Bool(false) => Err(NoServer)
    case Str(server) =>
      (match rt.parseUri(server)
       case None => Err(InvalidUriError)
       case Some(url) =>
         if url.path.None? then Err(NoMethodError("empty?"))
         else Ok(Request(url.host, url.port, RequestPath(url.path.value), url.scheme == Some("https"), message)))
    case _ => Err(InvalidUriError)
  }

  /** `publish_to(channel, data)`: build the message, then publish it. */
  function PublishTo(cfg: Config, channel: Value, data: Value, rt: Runtime): (r: Result<Request>)
    ensures !Truthy(Get(cfg, ServerKey)) ==> r == Err(NoServer)
    ensures r.Ok? ==> Unpack(r.value.message) == Some(Envelope(channel, data, Get(cfg, SecretTokenKey)))
  {
    MessageRoundTrip(cfg, channel, data);
    PublishMessage(cfg, Message(cfg, channel, data), rt)
  }

  /** Publishing reads only `:server` from the configuration: two
      configurations that agree on it publish a message alike. */
  lemma PublishReadsOnlyServer(cfg: Config, cfg': Config, message: Value, rt: Runtime)
    requires Get(cfg, ServerKey) == Get(cfg', ServerKey)
    ensures PublishMessage(cfg, message, rt) == PublishMessage(cfg', message, rt)
  {
  }
}

=== FILE: scenarios.dfy ===
/** The module used end to end: configuration loaded from a document,
    a ticket signed and checked, and the configuration errors. */
module Scenarios {
  import opened RubyValues
  import opened Library
  import opened ConfigStore
  import opened Signing
  import opened Publishing

  /** `private_pub.yml` with a `test` environment, as YAML reads it. */
  function TestDocument(): Table
  {
    map[StrKey("test") := Hash(map[
      StrKey("server") := Str("http://localhost:9/faye"),
      StrKey("secret_token") := Str("abc"),
      StrKey("signature_expiration") := Int(60)])]
  }

  /** The configuration the `test` environment should leave. */
  function TestConfig(): Config
  {
    map[
      ServerKey := Str("http://localhost:9/faye"),
      SecretTokenKey := Str("abc"),
      SignatureExpirationKey := Int(60)]
  }

  /** Reset then load `test`: each of the three settings reads back under
      its symbol, as `TestConfig` holds it. */
  lemma LoadTestEnvironment()
    ensures var r := Load(Reset(), TestDocument(), "test", "config/private_pub.yml");
      && r.Loaded?
      && Get(r.config, ServerKey) == Get(TestConfig(), ServerKey)
      && Get(r.config, SecretTokenKey) == Get(TestConfig(), SecretTokenKey)
      && Get(r.config, SignatureExpirationKey) == Get(TestConfig(), SignatureExpirationKey)
  {
    var section := TestDocument()[StrKey("test")].entries;
    assert SymKey("server") !in section && SymKey("secret_token") !in section
      && SymKey("signature_expiration") !in section;
    assert StrKey("server") in section && StrKey("secret_token") in section
      && StrKey("signature_expiration") in section;
  }

  /** Sign `/foo` under the `test` settings: the ticket names the
      configured server, carries the signing time, signs "abc", "/foo" and
      that time, and is accepted for the sixty seconds after it and refused
      later. */
  lemma SignedTicketLifecycle(rt: Runtime, nowMs: int, checkMs: int)
    requires nowMs <= checkMs <= nowMs + 60000
    ensures var t := Subscription(TestConfig(), nowMs, map[ChannelKey := Str("/foo")], rt);
      && t[ServerKey] == Str("http://localhost:9/faye")
      && t[TimestampKey] == Int(nowMs)
      && t[SignatureKey] == Str(rt.sha1Hex("abc" + "/foo" + IntText(nowMs)))
      && SignatureExpired(TestConfig(), checkMs, nowMs) == Ok(Some(false))
      && SignatureExpired(TestConfig(), nowMs + 60001, nowMs) == Ok(Some(true))
  {
  }

  /** Loading an environment the document lacks raises and leaves the
      configuration as it was. */
  lemma MissingEnvironmentRaises()
    ensures Load(Reset(), TestDocument(), "production", "config/private_pub.yml")
         == Raised(map[], MissingEnvironment("production", "config/private_pub.yml"))
  {
  }

  /** Publishing before any configuration is loaded raises. */
  lemma PublishBeforeLoadRaises(rt: Runtime, message: Value)
    ensures PublishMessage(Reset(), message, rt) == Err(NoServer)
  {
  }
}

=== FILE: signing.dfy ===
/** `subscription(options)` and `signature_expired?(timestamp)`: the signed
    ticket a browser presents to subscribe, and the age check on it. The
    current time is a parameter, in whole milliseconds since the epoch. */
module Signing {
  import opened RubyValues
  import opened Library
  import opened ConfigStore

  /** The string the signature digests: `[secret_token, channel, timestamp].join`
      over the configuration and the ticket's own fields. */
  function SignedText(cfg: Config, ticket: Table, hashText: Table -> string): string
  {
    Join([Get(cfg, SecretTokenKey), Get(ticket, ChannelKey), Get(ticket, TimestampKey)], hashText)
  }

  /** The check a verifier holding the same secret makes of a ticket: its
      signature is the digest of its own channel and timestamp. */
  predicate ValidTicket(cfg: Config, rt: Runtime, ticket: Table)
  {
    Get(ticket, SignatureKey) == Str(rt.sha1Hex(SignedText(cfg, ticket, rt.hashText)))
  }

  /** `subscription(options)` at time `nowMs`. */
  function Subscription(cfg: Config, nowMs: int, options: Table, rt: Runtime): (t: Table)
    ensures t.Keys == options.Keys + {ServerKey, TimestampKey, SignatureKey}
    ensures forall k :: k in options && k != SignatureKey ==> t[k] == options[k]
    ensures ServerKey !in options ==> t[ServerKey] == Get(cfg, ServerKey)
    ensures TimestampKey !in options ==> t[TimestampKey] == Int(nowMs)
    ensures t[SignatureKey] == Str(rt.sha1Hex(
      Text(Get(cfg, SecretTokenKey), rt.hashText)
      + Text(Get(options, ChannelKey), rt.hashText)
      + Text(t[TimestampKey], rt.hashText)))
  {
    var sub := map[ServerKey := Get(cfg, ServerKey), TimestampKey := Int(nowMs)] + options;
    JoinThree(Get(cfg, SecretTokenKey), Get(sub, ChannelKey), Get(sub, TimestampKey), rt.hashText);
    sub[SignatureKey := Str(rt.sha1Hex(SignedText(cfg, sub, rt.hashText)))]
  }

  /** Every ticket `subscription` hands out passes the verifier's check. */
  lemma SubscriptionIsValid(cfg: Config, nowMs: int, options: Table, rt: Runtime)
    ensures ValidTicket(cfg, rt, Subscription(cfg, nowMs, options, rt))
  {
  }

  /** A `:signature` the caller passes is overwritten: it has no effect on
      the ticket. */
  lemma CallerSignatureIgnored(cfg: Config, nowMs: int, options: Table, forged: Value, rt: Runtime)
    ensures Subscription(cfg, nowMs, options[SignatureKey := forged], rt)
         == Subscription(cfg, nowMs, options, rt)
  {
  }

  /** Signing a ticket again, at any later time, gives the same ticket: its
      own server and timestamp override the defaults. */
  lemma SubscriptionIdempotent(cfg: Config, nowMs: int, laterMs: int, options: Table, rt: Runtime)
    ensures Subscription(cfg, laterMs, Subscription(cfg, nowMs, options, rt), rt)
         == Subscription(cfg, nowMs, options, rt)
  {
  }

  /** Without a `:channel` option the signature covers the empty channel,
      exactly as if the caller had passed `""`; an option keyed by the string
      `"channel"` is not the symbol `:channel` and is not signed. */
  lemma MissingChannelSignsEmpty(cfg: Config, nowMs: int, options: Table, rt: Runtime)
    requires ChannelKey !in options
    ensures Subscription(cfg, nowMs, options, rt)[SignatureKey]
         == Subscription(cfg, nowMs, options[ChannelKey := Str("")], rt)[SignatureKey]
    ensures Subscription(cfg, nowMs, options, rt)[SignatureKey]
         == Subscription(cfg, nowMs, options[ChannelKey := Nil], rt)[SignatureKey]
  {
  }

  /** Without a `:secret_token` setting the signature covers the empty
      secret, exactly as if the secret were `""` or nil, whatever else the
      configuration holds. */
  lemma MissingSecretSignsEmpty(cfg: Config, nowMs: int, options: Table, rt: Runtime)
    requires SecretTokenKey !in cfg
    ensures Subscription(cfg, nowMs, options, rt)[SignatureKey]
         == Subscription(cfg[SecretTokenKey := Str("")], nowMs, options, rt)[SignatureKey]
    ensures Subscription(cfg, nowMs, options, rt)[SignatureKey]
         == Subscription(cfg[SecretTokenKey := Nil], nowMs, options, rt)[SignatureKey]
  {
  }

  /** Texts that agree after equal prefixes are equal. */
  lemma CancelPrefix(a: string, x: string, y: string)
    requires a + x == a + y
    ensures x == y
  {
    assert x == (a + x)[|a|..];
    assert y == (a + y)[|a|..];
  }

  /** Texts that agree before equal suffixes are equal. */
  lemma CancelSuffix(x: string, y: string, b: string)
    requires x + b == y + b
    ensures x == y
  {
    assert x == (x + b)[..|x|];
    assert y == (y + b)[..|y|];
  }

  /** For string secrets and channels and integer timestamps, the signed
      text tells apart any two tickets that differ in one of the three: the
      digest is over distinct inputs. */
  lemma SignedTextSeparates(secret: string, secret': string, channel: string, channel': string,
                            timestamp: int, timestamp': int, hashText: Table -> string)
    ensures channel == channel' && timestamp == timestamp' ==>
      ((Join([Str(secret), Str(channel), Int(timestamp)], hashText)
        == Join([Str(secret'), Str(channel), Int(timestamp)], hashText)) <==> secret == secret')
    ensures secret == secret' && timestamp == timestamp' ==>
      ((Join([Str(secret), Str(channel), Int(timestamp)], hashText)
        == Join([Str(secret), Str(channel'), Int(timestamp)], hashText)) <==> channel == channel')
    ensures secret == secret' && channel == channel' ==>
      ((Join([Str(secret), Str(channel), Int(timestamp)], hashText)
        == Join([Str(secret), Str(channel), Int(timestamp')], hashText)) <==> timestamp == timestamp')
  {
    JoinThree(Str(secret), Str(channel), Int(timestamp), hashText);
    JoinThree(Str(secret'), Str(channel), Int(timestamp), hashText);
    JoinThree(Str(secret), Str(channel'), Int(timestamp), hashText);
    JoinThree(Str(secret), Str(channel), Int(timestamp'), hashText);
    var t := IntText(timestamp);
    var t' := IntText(timestamp');
    assert secret + channel + t == secret + (channel + t);
    assert secret' + channel + t == secret' + (channel + t);
    assert secret + channel' + t == secret + (channel' + t);
    if secret + channel + t == secret' + channel + t {
      CancelSuffix(secret, secret', channel + t);
    }
    if secret + channel + t == secret + channel' + t {
      CancelPrefix(secret, channel + t, channel' + t);
      CancelSuffix(channel, channel', t);
    }
    if secret + channel + t == secret + channel + t' {
      CancelPrefix(secret + channel, t, t');
      IntTextInjective(timestamp, timestamp');
    }
  }

  /** The three texts are joined with no separator, so two tickets that
      differ in both channel and timestamp can digest the same text: the
      channel "/foo1" at 23 and the channel "/foo" at 123 sign alike. */
  lemma SignedTextAmbiguous(hashText: Table -> string)
    ensures Join([Str("s"), Str("/foo1"), Int(23)], hashText)
         == Join([Str("s"), Str("/foo"), Int(123)], hashText)
  {
  }

  /** `signature_expired?(timestamp)` at time `nowMs`: None when no
      expiration is configured, otherwise whether the ticket is older than
      the window. An expiration that is not an Integer cannot be subtracted
      from the time and raises. */
  function SignatureExpired(cfg: Config, nowMs: int, timestamp: int): (r: Result<Option<bool>>)
    ensures r == Ok(None) <==> !Truthy(Get(cfg, SignatureExpirationKey))
    ensures Get(cfg, SignatureExpirationKey).Int? ==>
      r.Ok? && r.value.Some? && (r.value.value <==> timestamp + Get(cfg, SignatureExpirationKey).i * 1000 < nowMs)
    ensures r.Err? <==> Truthy(Get(cfg, SignatureExpirationKey)) && !Get(cfg, SignatureExpirationKey).Int?
    ensures r.Err? ==> r.error == TypeError
  {
    match Get(cfg, SignatureExpirationKey)
    case Nil => Ok(None)
    case Bool(false) => Ok(None)
    case Int(seconds) => Ok(Some(timestamp < nowMs - seconds * 1000))
    case _ => Err(TypeError)
  }

  /** Once a timestamp is expired, older timestamps are too, and it stays
      expired as time goes on. */
  lemma ExpiryMonotone(cfg: Config, nowMs: int, laterMs: int, timestamp: int, older: int)
    requires SignatureExpired(cfg, nowMs, timestamp) == Ok(Some(true))
    requires older <= timestamp && nowMs <= laterMs
    ensures SignatureExpired(cfg, laterMs, older) == Ok(Some(true))
  {
  }

  /** A ticket signed at `signedMs`, checked at `nowMs` under a whole-second
      expiration: expired exactly when more than the window has passed, so a
      ticket checked exactly at the end of its window is still accepted. */
  lemma TicketLifetime(cfg: Config, signedMs: int, nowMs: int, options: Table, rt: Runtime)
    requires TimestampKey !in options
    requires Get(cfg, SignatureExpirationKey).Int?
    ensures var t := Subscription(cfg, signedMs, options, rt);
      var window := Get(cfg, SignatureExpirationKey).i * 1000;
      && t[TimestampKey] == Int(signedMs)
      && SignatureExpired(cfg, nowMs, t[TimestampKey].i) == Ok(Some(nowMs > signedMs + window))
      && SignatureExpired(cfg, signedMs + window, t[TimestampKey].i) == Ok(Some(false))
  {
  }
}

=== FILE: values.dfy ===
/** Ruby values as the module sees them: the configuration, message and
    ticket hashes, and the text Ruby's `Array#join` makes of each value. */
module RubyValues {

  /** Hash keys. A symbol `:channel` and a string `"channel"` are different
      keys in Ruby. The configuration, the options and the ticket are only
      read through symbols; the parsed YAML document is looked up by the
      environment's string name. */
  datatype Key = SymKey(name: string) | StrKey(text: string)

  /** The Ruby objects that can appear in a configuration, a message payload
      or a subscription ticket (floats are not modelled). */
  datatype Value =
    | Nil
    | Bool(b: bool)
    | Int(i: int)
    | Str(s: string)
    | Sym(name: string)
    | List(items: seq<Value>)
    | Hash(entries: map<Key, Value>)

  /** A Ruby hash. */
  type Table = map<Key, Value>

  /** The error classes the module raises, with their messages. */
  datatype Failure =
    | ArgumentError(message: string)
    | PrivatePubError(message: string)
    | TypeError
    | NoMethodError(selector: string)
    | InvalidUriError

  datatype Result<+T> = Ok(value: T) | Err(error: Failure)

  datatype Option<+T> = None | Some(value: T)

  /** The symbols the module reads and writes. */
  const ServerKey := SymKey("server")
  const SecretTokenKey := SymKey("secret_token")
  const SignatureExpirationKey := SymKey("signature_expiration")
  const LogStateKey := SymKey("log_state")
  const ChannelKey := SymKey("channel")
  const DataKey := SymKey("data")
  const EvalKey := SymKey("eval")
  const ExtKey := SymKey("ext")
  const TokenKey := SymKey("private_pub_token")
  const TimestampKey := SymKey("timestamp")
  const SignatureKey := SymKey("signature")

  /** Ruby's `h[k]`: a missing key reads as nil. */
  function Get(h: Table, k: Key): Value
  {
    if k in h then h[k] else Nil
  }

  /** Ruby truthiness: only nil and false are falsy (0 and "" are truthy). */
  predicate Truthy(v: Value)
  {
    !(v.Nil? || v == Bool(false))
  }

  /** `String#to_sym` and `Symbol#to_sym`; every other object has no
      `to_sym`. */
  function ToSym(v: Value): (r: Result<Key>)
    ensures r.Ok? <==> v.Str? || v.Sym?
    ensures v.Str? ==> r == Ok(SymKey(v.s))
    ensures v.Sym? ==> r == Ok(SymKey(v.name))
    ensures r.Err? ==> r.error == NoMethodError("to_sym")
  {
    match v
    case Str(s) => Ok(SymKey(s))
    case Sym(n) => Ok(SymKey(n))
    case _ => Err(NoMethodError("to_sym"))
  }

  /** Decimal text of a non-negative integer, most significant digit first. */
  function NatText(n: nat): (r: string)
    ensures |r| >= 1
    ensures forall k :: 0 <= k < |r| ==> '0' <= r[k] <= '9'
    ensures n > 0 ==> r[0] != '0'
    decreases n
  {
    if n < 10 then [DigitChar(n)] else NatText(n / 10) + [DigitChar(n % 10)]
  }

  function DigitChar(d: nat): (c: char)
    requires d < 10
    ensures '0' <= c <= '9'
  {
    "0123456789"[d]
  }

  /** `Integer#to_s`. */
  function IntText(i: int): (r: string)
    ensures |r| >= 1
    ensures i < 0 <==> r[0] == '-'
  {
    if i < 0 then "-" + NatText(-i) else NatText(i)
  }

  /** Reads back a string of decimal digits; the partner of `NatText`. */
  function ParseNat(s: string): int
  {
    if |s| == 0 then 0 else ParseNat(s[..|s| - 1]) * 10 + (s[|s| - 1] as int - '0' as int)
  }

  /** Reads back an optionally signed decimal; the partner of `IntText`. */
  function ParseInt(s: string): int
  {
    if |s| > 0 && s[0] == '-' then -ParseNat(s[1..]) else ParseNat(s)
  }

  lemma {:induction false} NatTextRoundTrip(n: nat)
    ensures ParseNat(NatText(n)) == n
    decreases n
  {
    if n >= 10 {
      var prefix := NatText(n / 10);
      var s := prefix + [DigitChar(n % 10)];
      assert s[..|s| - 1] == prefix;
      NatTextRoundTrip(n / 10);
      assert "0123456789"[n % 10] as int - '0' as int == n % 10;
    } else {
      assert "0123456789"[n] as int - '0' as int == n;
      assert NatText(n)[..0] == "";
    }
  }

  /** `Integer#to_s` loses nothing: the text reads back as the integer. */
  lemma IntTextRoundTrip(i: int)
    ensures ParseInt(IntText(i)) == i
  {
    if i < 0 {
      NatTextRoundTrip(-i);
      assert IntText(i)[1..] == NatText(-i);
    } else {
      NatTextRoundTrip(i);
    }
  }

  /** Distinct integers have distinct decimal texts. */
  lemma IntTextInjective(i: int, j: int)
    ensures IntText(i) == IntText(j) <==> i == j
  {
    IntTextRoundTrip(i);
    IntTextRoundTrip(j);
  }

  /** The text `Array#join` contributes for one element: strings as they are,
      nil as the empty string, nested arrays joined recursively, everything
      else by `to_s`; a hash's `to_s` is Ruby's `inspect`, which the caller
      supplies as `hashText`. */
  function Text(v: Value, hashText: Table -> string): string
    decreases v
  {
    match v
    case Nil => ""
    case Bool(b) => if b then "true" else "false"
    case Int(i) => IntText(i)
    case Str(s) => s
    case Sym(n) => n
    case List(items) => Join(items, hashText)
    case Hash(m) => hashText(m)
  }

  /** `Array#join` with no separator. */
  function Join(items: seq<Value>, hashText: Table -> string): string
    decreases items
  {
    if |items| == 0 then "" else Text(items[0], hashText) + Join(items[1..], hashText)
  }

  /** Joining three values, the shape the ticket signature uses. */
  lemma JoinThree(a: Value, b: Value, c: Value, hashText: Table -> string)
    ensures Join([a, b, c], hashText) == Text(a, hashText) + Text(b, hashText) + Text(c, hashText)
  {
    assert [a, b, c][1..] == [b, c];
    assert [b, c][1..] == [c];
    assert [c][1..] == [];
    assert Join([c], hashText) == Text(c, hashText) + Join([], hashText);
    assert Join([b, c], hashText) == Text(b, hashText) + Join([c], hashText);
    assert Join([a, b, c], hashText) == Text(a, hashText) + Join([b, c], hashText);
  }
}
